=== FILE: README.md ===
# Blogger index generator, modelled in Dafny

`generate_blogger_index.py` walks a Blogger JSON feed page by page. It
requests 500 entries at a time from a 1-based `start-index`. From each entry
it keeps a record `{url, title, labels}`. At the end it writes the records as
one JSON array. This project models the two parts of the script with real
control flow, and proves what they do:

- **Per-entry extraction** (`entries.dfy`, module `Entries`). The URL is the
  `href` of the first link whose `rel` is `"alternate"`. The title is `$t`,
  or `"Untitled"`. The labels are the truthy category terms, in order. An entry
  without a URL is skipped. An entry whose shape makes the extraction raise
  ends the page's loop and the fetch loop, and records already appended stay.
  The `for` loop is a method (`ProcessPage`) with a functional partner
  (`Gather`, `Retained`).
- **The fetch loop** (`pagination.dfy`, module `Pagination`). One iteration of
  `while True` is a state-machine step, `Step`, over `(start_index,
  total_posts, all_posts_data)`. Each fetched page is one of three kinds:
  `Fault` (a request, status or decoding exception, and also a `feed` that is
  not an object, whose `TypeError` the last handler catches), `Malformed` (no
  `feed` key, or no `entry` key in it), or a page of entries with its total
  field (`"entry": null` counts as an empty page). The step either goes
  on, breaks with a named reason, or `exit()`s without writing. `Run` iterates
  the step. `Iteration` and `FetchAll` follow the script statement by
  statement, and are proved equal to `Step` and `Run`.
- **The loop over a finite collection** (`collection.dfy`, module
  `Collection`). Here the feed is a fixed sequence of entries, served in
  slices. Under that assumption the loop stops within `|coll| + 1` fetches,
  whatever the entries and the total field hold. When no entry raises and the
  total field is parsable, it writes the collection's records in order, or a
  prefix of them when the total stopped it.

`wrappers.dfy` holds the `Option` type.

The remote feed is a parameter, `fetch: int -> PageResult`: the page the feed
returns for a start index. The loop asks for each start index at most once,
because the offset grows on every round. So a function covers every behaviour
of the remote side. `Run` is bounded by a number of fetches (`fuel`). The
result `Unfinished` says the bound ran out. `Trace` lists the states at which
`Run` fetches, in order. It follows `Run`'s recursion, and `TraceLast` and
`TraceCutShort` tie its last state to the way the run ends. The properties
about "the k-th fetch" are stated on it.

Behaviour worth knowing:
- A first-page HTTP error (404 included) is caught by the `RequestException`
  handler, so an empty array is written. Only a first page without
  `feed`/`entry` leads to `exit()`, whose `SystemExit` the handlers do not catch.
- The file is written even when nothing was collected.
- The loop stops only on an empty page, the total, a malformed later page,
  or an exception.
- A missing total field is replaced by an estimate. An unparsable one raises,
  which ends the loop.
- URL selection looks at `rel` only.

## Model

| member | source | states |
|---|---|---|
| Entries.FirstAlternateMeaning | generate_blogger_index.py:56-60 | the inner link loop stops at the first link whose `rel` is exactly "alternate"; it finds none exactly when no link has that `rel` |
| Entries.FirstAlternateUnique | generate_blogger_index.py:57-60 | whenever index i is the first alternate link, the loop selects i |
| Entries.LaterLinksIgnored | generate_blogger_index.py:57-60 | replacing every link after the first alternate one (more alternate links included) never changes the extracted record |
| Entries.LabelsMeaning | generate_blogger_index.py:63 | every label is a non-empty `term`, and a string is a label exactly when some category carries it as a non-empty `term` |
| Entries.LabelsAppend | generate_blogger_index.py:63 | labels keep encounter order: the labels of two category lists joined are the first list's labels followed by the second's |
| Entries.Extract | generate_blogger_index.py:55-70 | a produced record always has a non-empty URL |
| Entries.ExtractMeaning | generate_blogger_index.py:55-70 | a record is produced exactly when the first alternate link has a non-empty `href`; the URL is that `href`; the labels are the entry's labels; the title is `$t` when present, else "Untitled" |
| Entries.RetainedUrls | generate_blogger_index.py:65-70 | every retained record has a non-empty URL |
| Entries.RetainedAppend | generate_blogger_index.py:55-70 | the records of a page are the records of its first part followed by those of the rest: only appends, in entry order |
| Entries.RetainedFull | generate_blogger_index.py:65-70 | a page yields one record per entry exactly when every entry has a URL; one URL-less entry leaves fewer records than entries |
| Entries.SkippedEntryIsInvisible | generate_blogger_index.py:54-70 | a URL-less entry is skipped silently: inserting one anywhere in a page leaves the entry walk's records and its raising unchanged |
| Entries.FirstMisshapenAt | generate_blogger_index.py:55 | the first misshapen entry is at k exactly when all entries before k are well-shaped and k is misshapen or the end |
| Entries.MisshapenSomewhere | generate_blogger_index.py:55 | the entry walk meets a misshapen entry before the end exactly when some entry is misshapen |
| Entries.GatherMeaning | generate_blogger_index.py:55-70 | the functional entry loop appends the records of the entries before the first misshapen one, and raises exactly when there is one |
| Entries.GatherRecords | generate_blogger_index.py:55-70 | the records the functional entry loop appends are those of the entries before the first misshapen one |
| Entries.GatherRaises | generate_blogger_index.py:55-70 | the functional entry loop raises exactly when a misshapen entry exists |
| Entries.ProcessPage | generate_blogger_index.py:55-70 | the imperative entry loop, with its early stop on a raising entry, computes exactly the walk `Gather`, whose records and raising `Entries.GatherMeaning` characterises |
| Pagination.FixTotal | generate_blogger_index.py:42-49 | a known total is never replaced; a parsable field gives its value; `int()` raises exactly when the total is unknown and the field unparsable |
| Pagination.Step | generate_blogger_index.py:22-95 | an iteration `exit()`s exactly on a malformed page at offset 1; going round again advances the offset by exactly 500; the safety break at lines 83-85 is never taken |
| Pagination.StepTotal | generate_blogger_index.py:42-49 | a known total stays; after the total block the total is the one `FixTotal` gives; going on leaves the count below the total; stopping on the total means the count reached it |
| Pagination.StepGrows | generate_blogger_index.py:55-70 | an iteration never changes or removes a record already accumulated |
| Pagination.StepRecords | generate_blogger_index.py:51-77 | a break keeps the offset; only URL-bearing records are appended; a page with no entries appends nothing and ends the loop; a processed page appends its records up to the first misshapen entry |
| Pagination.StopConditions | generate_blogger_index.py:26-95 | each break reason holds exactly when the script takes that break: request fault, malformed later page, exception (unparsable total or misshapen entry), empty page, count of retained records at least the total |
| Pagination.Iteration | generate_blogger_index.py:23-95 | the body of `while True`, statement by statement, agrees with `Step` on every state and page |
| Pagination.FetchAll | generate_blogger_index.py:16-95 | the loop with its `break`s and `exit()`, bounded in fetches, has exactly the outcome of `Run` from the initial state |
| Pagination.Trace | generate_blogger_index.py:22-27 | the trace of fetch states starts at the state it is given and has at most one state per allowed fetch; `Pagination.TraceLast` and `Pagination.TraceCutShort` show that its states are the ones at which `Run` fetches |
| Pagination.TraceLast | generate_blogger_index.py:22-95 | the last trace state is where the run ends: a written file comes from the break taken at that state, and nothing is written only after an `exit()` there |
| Pagination.TraceCutShort | generate_blogger_index.py:22-80 | a run cut short by the fetch bound has a trace of exactly that many states, and the step at the last one was about to go round again |
| Pagination.NoExitAfterFirstPage | generate_blogger_index.py:31-37 | once past offset 1, the loop can no longer end without writing |
| Pagination.NoOutputIffMalformedFirstPage | generate_blogger_index.py:31-37 | the script writes nothing exactly when the first page lacks `feed` or `entry` |
| Pagination.RunMoreFuel | generate_blogger_index.py:22 | the fetch bound only cuts runs short: a run that finishes within some bound has the same outcome under every larger bound, so a finished `Run` is the outcome of the unbounded `while True` |
| Pagination.RunExtendsAccumulator | generate_blogger_index.py:16-95 | the written array extends the accumulator the loop started from, and every appended record has a URL |
| Pagination.WrittenRecordsHaveUrls | generate_blogger_index.py:65-70 | every record in a written file has a non-empty URL |
| Pagination.TraceOffsets | generate_blogger_index.py:80 | the k-th fetch from a state asks for its start index plus 500·k, whatever the pages held |
| Pagination.FetchOffsets | generate_blogger_index.py:17-80 | the k-th fetch of the script asks for start index 1 + 500·k |
| Pagination.WrittenOffset | generate_blogger_index.py:17-80 | a written file is written from the offset of the script's last fetch, `1 + 500·k` for some fetch k within the bound |
| Pagination.TraceKeepsTotal | generate_blogger_index.py:42 | a known total is kept for the rest of the run |
| Pagination.TotalSetOnce | generate_blogger_index.py:42-49 | from the second fetch on, the total is known and the same. It is the first page's field value, or the estimate `len(entries) + 500` when that field is missing. An unparsable field never reaches a second fetch |
| Pagination.TraceStepsGrow | generate_blogger_index.py:55-70 | each fetch sees an accumulator extending the previous fetch's |
| Pagination.TraceAccumulatorGrows | generate_blogger_index.py:16-95 | the accumulator seen at a later fetch extends the one seen at any earlier fetch |
| Pagination.EmptyFeedWritesEmpty | generate_blogger_index.py:51-53 | an empty first page with a usable total field writes an empty array |
| Pagination.FirstPageFaultWritesEmpty | generate_blogger_index.py:87-89 | a request fault on the first page (an HTTP error status included) writes an empty array instead of aborting |
| Pagination.UnparsableTotalWritesEmpty | generate_blogger_index.py:93-95 | an unparsable total on the first page ends the loop before any entry is read, and an empty array is written |
| Collection.PageInside | generate_blogger_index.py:39-80 | when no entry of the collection raises and the total field is parsable, a page inside the collection is taken in whole; the loop then goes on with the invariant kept, or stops on the total |
| Collection.PagePastEnd | generate_blogger_index.py:31-53 | the page past the end stops the loop with every record taken in, or exits only on the first page of an empty collection |
| Collection.RunFrom | generate_blogger_index.py:22-95 | when no entry of the collection raises and the total field is parsable: from any state that has consumed the collection up to its offset, with enough fetches left, the run settles: it is finished and writes a prefix of the records, all of them unless the total stopped it |
| Collection.RunStops | generate_blogger_index.py:22-95 | over any collection, misshapen entries and an unparsable total included, the loop stops once it has had more fetches than entries remain past its offset |
| Collection.RunCompletes | generate_blogger_index.py:22-95 | from the start, within `|coll| + 1` fetches the loop stops whatever the collection holds; when no entry raises and the total is parsable, it writes the collection's records in order, or a prefix of them when the total stopped it |
| Collection.NoOutputIffEmptyAndMalformed | generate_blogger_index.py:31-37 | over a collection, nothing is written exactly when the collection is empty and its one page lacks `entry` |
| Collection.ExactTotalCollectsAll | generate_blogger_index.py:75-77 | when no entry of the collection raises and an exact total is reported, the written array holds every record of the collection |
| Collection.MissingUrlDefeatsTotal | generate_blogger_index.py:75-77 | the total test compares retained records against a count of entries: when no entry raises and one entry has no URL, the exact total is never reached, and only the end of the collection stops the loop |
| Collection.EstimateStopsAtTwoPages | generate_blogger_index.py:47-49 | without a total field and with more than 1000 entries, all of them URL-bearing, the estimate is 1000; the loop stops after two pages with the first 1000 records only |

## Left out

- The placeholder-URL check and `exit()` at lines 12-14: configuration, not part of the loop.
- Building the request URL (line 23), HTTP, JSON decoding, and every `print`. The remote side is the `fetch` parameter. A raised request, status or decoding exception is the single `Fault` page.
- Writing the file (lines 98-108): `Written` carries the accumulator that `json.dump` receives. `IOError` and the final warning at line 104 are not modelled.
- The three `except` arms are collapsed into reasons (`RequestFailed`, `UnexpectedError`). Which `requests` version makes `response.json()` raise a `RequestException` is not modelled. Both arms `break`.
- JSON values of unexpected type are folded into `RawEntry.Misshapen`: a non-object title or category, a non-object link at or before the first alternate one, a `null` link list. A non-object link after the first alternate one is never touched by the inner loop (the `break` at line 60); such an entry is modelled as an `Entry` whose links end at the first alternate one, which `Entries.LaterLinksIgnored` shows gives the same record. A truthy non-string `href`, `$t` or `term` is not modelled. Strings stand for all such values. A `$t` of `null` would give a title of `None`. The model does not distinguish it from a missing `$t`.
- `int()` on the total field is abstracted to parsable (`Valid(n)`) or raising (`Unparsable`). Its string format is not modelled.
- Pagination.Run: bounded by a fetch count (`fuel`). A loop that never stops against an infinite feed shows up only as `Unfinished` at every bound. A finished result does not depend on the bound (`Pagination.RunMoreFuel`), so the lemmas stated at one bound, such as `|coll| + 1` in `Collection`, hold at every larger one. Termination is proved for finite collections in `Collection`.
- Collection.PageInside: stated only for collections where no entry raises and with a parsable total field. A page holding a misshapen entry is taken in only up to that entry and stops the loop (`Pagination.StepRecords`); an unparsable field stops the first page before any entry is read (`Pagination.UnparsableTotalWritesEmpty`).
- Collection.ExactTotalCollectsAll: stated only for collections where no entry raises. With a misshapen entry, the loop stops on that exception with at most the records before it, so it does not hold every record.
- Collection.MissingUrlDefeatsTotal: stated only for collections where no entry raises. With a misshapen entry, the loop stops on that exception, not at the end of the collection.
- Collection.EstimateStopsAtTwoPages: stated only when every entry has a URL. A URL-less entry in the first 1000 leaves the count below the estimate of 1000 after two pages, and the loop goes on.
- Collection.RunCompletes: assumes a feed that serves a fixed collection and answers past its end with an empty or malformed page. The script itself relies on no such assumption. Termination holds for every collection and total field (`Collection.RunStops`), but what is written is characterised only when no entry raises and the total field is parsable. With an unparsable field on the first page of a non-empty collection, `[]` is written at once (`Pagination.UnparsableTotalWritesEmpty`). For one page holding a misshapen entry, `Pagination.StepRecords` and `Pagination.StopConditions` state that the records before it are appended and the loop stops with `UnexpectedError`; the model does not lift that to a whole collection.
- Collection.RunFrom: same restriction as `Collection.RunCompletes`, for the same reason: it is the completeness induction.

=== FILE: collection.dfy ===
/** The loop run against a finite remote collection: an assumption the script
    itself never states. The feed is taken to hold a fixed sequence of entries,
    served in slices of 500 from a 1-based start index, and to answer a start
    index past its end with an empty or malformed page. Under that assumption
    the loop stops, and what it writes is determined by the collection. */
module Collection {
  import opened Wrappers
  import opened Entries
  import opened Pagination

  function Min(a: int, b: int): int {
    if a <= b then a else b
  }

  /** The page a collection returns for a start index. */
  function Serve(coll: seq<RawEntry>, field: TotalField, pastEnd: PageResult, start: int): (p: PageResult)
    ensures 1 <= start <= |coll| ==> p.Page? && 0 < |p.entries| <= PageSize
  {
    if 1 <= start <= |coll| then Page(coll[start - 1 .. Min(start - 1 + PageSize, |coll|)], field)
    else pastEnd
  }

  /** The collection as the `fetch` argument of `Run`. */
  function Remote(coll: seq<RawEntry>, field: TotalField, pastEnd: PageResult): int -> PageResult {
    start => Serve(coll, field, pastEnd, start)
  }

  /** The answer past the end: no `entry` key, or an empty entry list. */
  predicate EndMarker(p: PageResult) {
    p.Malformed? || (p.Page? && p.entries == [])
  }

  /** No entry of the collection makes the extraction raise. */
  predicate WellShaped(coll: seq<RawEntry>) {
    forall i :: 0 <= i < |coll| ==> coll[i].Entry?
  }

  /** The records of a prefix are a prefix of the records of the whole. */
  lemma {:induction false} RetainedPrefix(coll: seq<RawEntry>, m: nat)
    requires m <= |coll|
    ensures Retained(coll[..m]) <= Retained(coll)
  {
    SliceRetained(coll, m, |coll|);
    assert coll[..|coll|] == coll;
    PrefixOfConcat(Retained(coll[..m]), Retained(coll[m..|coll|]));
  }

  /** A sequence is a prefix of itself extended. */
  lemma PrefixOfConcat(head: seq<Post>, tail: seq<Post>)
    ensures head <= head + tail
  {
    assert (head + tail)[..|head|] == head;
  }

  /** The loop's invariant over a collection: everything before the start
      index has been processed, and a known total is the one the feed reported. */
  predicate Consumed(coll: seq<RawEntry>, field: TotalField, s: State) {
    && s.start >= 1
    && s.acc == Retained(coll[..Min(s.start - 1, |coll|)])
    && (field.Valid? && s.total.Some? ==> s.total == Some(field.n))
  }

  /** In a collection where no entry raises, with a parsable total field, a
      page inside the collection is processed whole: the loop either moves on
      with the invariant kept, or stops after taking in the page's records. */
  lemma PageInside(coll: seq<RawEntry>, field: TotalField, pastEnd: PageResult, s: State)
    requires WellShaped(coll) && !field.Unparsable? && Consumed(coll, field, s)
    requires s.start <= |coll|
    ensures var r := Step(s, Serve(coll, field, pastEnd, s.start));
      && !r.Exit?
      && After(r).acc == Retained(coll[..Min(s.start - 1 + PageSize, |coll|)])
      && (r.Continue? ==> Consumed(coll, field, r.next))
      && (r.Stop? ==> r.why == TotalReached)
      && (r.Stop? && field.Valid? ==> |r.final.acc| >= field.n)
  {
    var lo := s.start - 1;
    var hi := Min(lo + PageSize, |coll|);
    var entries := coll[lo..hi];
    assert Serve(coll, field, pastEnd, s.start) == Page(entries, field);
    FirstMisshapenAt(entries, |entries|);
    assert entries[..|entries|] == entries;
    SliceRetained(coll, lo, hi);
    GatherMeaning(s.acc, entries);
    var r := Step(s, Page(entries, field));
    assert After(r).acc == s.acc + Retained(entries);
  }

  /** The page past the end stops the loop with everything taken in, or exits
      when the collection is empty and that first page is malformed. */
  lemma {:induction false} PagePastEnd(coll: seq<RawEntry>, field: TotalField, pastEnd: PageResult, s: State)
    requires EndMarker(pastEnd) && Consumed(coll, field, s)
    requires s.start > |coll|
    ensures var r := Step(s, Serve(coll, field, pastEnd, s.start));
      && !r.Continue?
      && (r.Exit? ==> s.start == 1 && |coll| == 0)
      && (r.Stop? ==> r.final.acc == Retained(coll) && r.why != TotalReached)
  {
    assert Min(s.start - 1, |coll|) == |coll|;
    assert coll[..|coll|] == coll;
    assert Serve(coll, field, pastEnd, s.start) == pastEnd;
    StepRecords(s, pastEnd);
  }

  /** What a finished run over the collection writes, seen from state `s`:
      it is finished; it exits only from the first page of an empty
      collection; it writes a prefix of the collection's records, all of them
      unless the total stopped it, and it stops on an exact total only once
      the count is reached. */
  predicate Settles(coll: seq<RawEntry>, field: TotalField, s: State, r: RunResult) {
    && !r.Unfinished?
    && (r.NoOutput? ==> s.start == 1 && |coll| == 0)
    && (r.Written? ==> r.final.acc <= Retained(coll))
    && (r.Written? && r.why != TotalReached ==> r.final.acc == Retained(coll))
    && (r.Written? && r.why == TotalReached && field.Valid? ==> |r.final.acc| >= field.n)
  }

  /** Settling from a later state is settling from an earlier one. */
  lemma SettlesLater(coll: seq<RawEntry>, field: TotalField, s: State, next: State, r: RunResult)
    requires 1 <= s.start < next.start && Settles(coll, field, next, r)
    ensures Settles(coll, field, s, r)
  {
  }

  /** A run whose first fetch is past the end settles at once. */
  lemma SettlesPastEnd(coll: seq<RawEntry>, field: TotalField, pastEnd: PageResult, s: State, fuel: nat)
    requires EndMarker(pastEnd) && Consumed(coll, field, s)
    requires fuel >= 1 && s.start > |coll|
    ensures Settles(coll, field, s, Run(Remote(coll, field, pastEnd), s, fuel))
  {
    var fetch := Remote(coll, field, pastEnd);
    assert fetch(s.start) == Serve(coll, field, pastEnd, s.start);
    RunUnfold(fetch, s, fuel);
    PagePastEnd(coll, field, pastEnd, s);
  }

  /** A run that stops on a page inside the collection settles at once. */
  lemma SettlesInside(coll: seq<RawEntry>, field: TotalField, pastEnd: PageResult, s: State, fuel: nat)
    requires WellShaped(coll) && !field.Unparsable? && Consumed(coll, field, s)
    requires fuel >= 1 && s.start <= |coll|
    requires !Step(s, Serve(coll, field, pastEnd, s.start)).Continue?
    ensures Settles(coll, field, s, Run(Remote(coll, field, pastEnd), s, fuel))
  {
    var fetch := Remote(coll, field, pastEnd);
    assert fetch(s.start) == Serve(coll, field, pastEnd, s.start);
    RunUnfold(fetch, s, fuel);
    PageInside(coll, field, pastEnd, s);
    RetainedPrefix(coll, Min(s.start - 1 + PageSize, |coll|));
  }

  /** From any state that has consumed the collection up to its start index,
      with more fetches left than entries remain, the run settles: it stops
      and writes a prefix of the collection's records, all of them unless it
      stopped on the total. `|coll| - s.start + 1` is the decreasing measure. */
  lemma {:induction false} RunFrom(coll: seq<RawEntry>, field: TotalField, pastEnd: PageResult, s: State, fuel: nat)
    requires WellShaped(coll) && !field.Unparsable? && EndMarker(pastEnd)
    requires Consumed(coll, field, s)
    requires fuel >= 1 && fuel > |coll| - s.start + 1
    ensures Settles(coll, field, s, Run(Remote(coll, field, pastEnd), s, fuel))
    decreases fuel, 2
  {
    if s.start > |coll| {
      SettlesPastEnd(coll, field, pastEnd, s, fuel);
    } else if !Step(s, Serve(coll, field, pastEnd, s.start)).Continue? {
      SettlesInside(coll, field, pastEnd, s, fuel);
    } else {
      SettlesContinue(coll, field, pastEnd, s, fuel);
    }
  }

  /** A run that moves past a page inside the collection settles when the run
      from the next page does. */
  lemma {:induction false} SettlesContinue(coll: seq<RawEntry>, field: TotalField, pastEnd: PageResult, s: State, fuel: nat)
    requires WellShaped(coll) && !field.Unparsable? && EndMarker(pastEnd)
    requires Consumed(coll, field, s)
    requires fuel >= 1 && fuel > |coll| - s.start + 1 && s.start <= |coll|
    requires Step(s, Serve(coll, field, pastEnd, s.start)).Continue?
    ensures Settles(coll, field, s, Run(Remote(coll, field, pastEnd), s, fuel))
    decreases fuel, 1
  {
    var next := Step(s, Serve(coll, field, pastEnd, s.start)).next;
    PageInside(coll, field, pastEnd, s);
    assert Remote(coll, field, pastEnd)(s.start) == Serve(coll, field, pastEnd, s.start);
    RunUnfold(Remote(coll, field, pastEnd), s, fuel);
    SettlesFromNext(coll, field, pastEnd, s, next, fuel);
  }

  /** The inductive step: the run from `s` is the run from `next`, one page on. */
  lemma {:induction false} SettlesFromNext(coll: seq<RawEntry>, field: TotalField, pastEnd: PageResult, s: State, next: State, fuel: nat)
    requires WellShaped(coll) && !field.Unparsable? && EndMarker(pastEnd)
    requires Consumed(coll, field, next) && 1 <= s.start < next.start
    requires fuel >= 2 && fuel - 1 > |coll| - next.start + 1
    requires Run(Remote(coll, field, pastEnd), s, fuel) == Run(Remote(coll, field, pastEnd), next, fuel - 1)
    ensures Settles(coll, field, s, Run(Remote(coll, field, pastEnd), s, fuel))
    decreases fuel, 0
  {
    RunFrom(coll, field, pastEnd, next, fuel - 1);
    SettlesLater(coll, field, s, next, Run(Remote(coll, field, pastEnd), next, fuel - 1));
  }

  /** Termination over any collection and any total field, misshapen entries
      and an unparsable total included: with more fetches left than entries
      remain past the start index, the run stops. A page that lets the loop go
      on holds entries, so it lies inside the collection, and the offset moves
      500 entries on. */
  lemma {:induction false} RunStops(coll: seq<RawEntry>, field: TotalField, pastEnd: PageResult, s: State, fuel: nat)
    requires EndMarker(pastEnd) && s.start >= 1
    requires fuel >= 1 && fuel > |coll| - s.start + 1
    ensures !Run(Remote(coll, field, pastEnd), s, fuel).Unfinished?
    decreases fuel
  {
    var fetch := Remote(coll, field, pastEnd);
    var page := Serve(coll, field, pastEnd, s.start);
    assert fetch(s.start) == page;
    RunUnfold(fetch, s, fuel);
    StepRecords(s, page);
    var r := Step(s, page);
    if r.Continue? {
      RunStops(coll, field, pastEnd, r.next, fuel - 1);
    }
  }

  /** Termination and completeness from the start of the script: within
      `|coll| + 1` fetches the loop stops, whatever the collection holds. When
      no entry raises and the total field is parsable, it writes the records
      of the collection in order, or a prefix of them when the total stopped it. */
  lemma {:induction false} RunCompletes(coll: seq<RawEntry>, field: TotalField, pastEnd: PageResult)
    requires EndMarker(pastEnd)
    ensures var r := Run(Remote(coll, field, pastEnd), Initial, |coll| + 1);
      && !r.Unfinished?
      && (WellShaped(coll) && !field.Unparsable? && r.Written? ==> r.final.acc <= Retained(coll))
      && (WellShaped(coll) && !field.Unparsable? && r.Written? && r.why != TotalReached ==> r.final.acc == Retained(coll))
  {
    RunStops(coll, field, pastEnd, Initial, |coll| + 1);
    if WellShaped(coll) && !field.Unparsable? {
      assert coll[..0] == [];
      RunFrom(coll, field, pastEnd, Initial, |coll| + 1);
    }
  }

  /** Over a collection, nothing is written exactly when the collection is
      empty and its one page is malformed. */
  lemma NoOutputIffEmptyAndMalformed(coll: seq<RawEntry>, field: TotalField, pastEnd: PageResult, fuel: nat)
    requires fuel > 0
    ensures Run(Remote(coll, field, pastEnd), Initial, fuel).NoOutput? <==> |coll| == 0 && pastEnd.Malformed?
  {
    NoOutputIffMalformedFirstPage(Remote(coll, field, pastEnd), fuel);
    assert Remote(coll, field, pastEnd)(1) == Serve(coll, field, pastEnd, 1);
  }

  /** When no entry of the collection raises and the first page carries an
      exact total, the file holds every record of the collection: stopping on
      the total needs as many records as entries. */
  lemma {:induction false} ExactTotalCollectsAll(coll: seq<RawEntry>, pastEnd: PageResult)
    requires WellShaped(coll) && EndMarker(pastEnd)
    ensures var r := Run(Remote(coll, Valid(|coll|), pastEnd), Initial, |coll| + 1);
      r.Written? ==> r.final.acc == Retained(coll)
  {
    var r := Run(Remote(coll, Valid(|coll|), pastEnd), Initial, |coll| + 1);
    assert coll[..0] == [];
    RunFrom(coll, Valid(|coll|), pastEnd, Initial, |coll| + 1);
    if r.Written? && r.why == TotalReached {
      PrefixOfSameLength(r.final.acc, Retained(coll));
    }
  }

  /** A prefix as long as the whole is the whole. */
  lemma PrefixOfSameLength(a: seq<Post>, b: seq<Post>)
    requires a <= b && |a| >= |b|
    ensures a == b
  {
    assert b[..|a|] == b;
  }

  /** The total test counts retained records against a count of entries: in a
      collection where no entry raises, when some entry has no URL, an exact
      total is never reached, and only the end of the collection stops the loop. */
  lemma {:induction false} MissingUrlDefeatsTotal(coll: seq<RawEntry>, pastEnd: PageResult, i: nat)
    requires WellShaped(coll) && EndMarker(pastEnd)
    requires i < |coll| && !HasUrl(coll[i])
    ensures var r := Run(Remote(coll, Valid(|coll|), pastEnd), Initial, |coll| + 1);
      r.Written? && r.why != TotalReached && r.final.acc == Retained(coll)
  {
    var r := Run(Remote(coll, Valid(|coll|), pastEnd), Initial, |coll| + 1);
    assert coll[..0] == [];
    RunFrom(coll, Valid(|coll|), pastEnd, Initial, |coll| + 1);
    RetainedFull(coll);
    assert |Retained(coll)| < |coll|;
    assert r.Written?;
    assert |r.final.acc| <= |Retained(coll)|;
  }

  /** Without a total field the first page's estimate is `len(entries) + 500`.
      For a collection of more than 1000 entries, all of them URL-bearing, that
      estimate is 1000, reached after the second page: the loop stops there and
      the file holds the first 1000 records only. */
  lemma EstimateStopsAtTwoPages(coll: seq<RawEntry>, pastEnd: PageResult, fuel: nat)
    requires forall i :: 0 <= i < |coll| ==> HasUrl(coll[i])
    requires |coll| > 2 * PageSize && fuel >= 2
    ensures var r := Run(Remote(coll, Absent, pastEnd), Initial, fuel);
      && r == Written(State(1 + PageSize, Some(2 * PageSize), Retained(coll[..2 * PageSize])), TotalReached)
      && |r.final.acc| == 2 * PageSize < |Retained(coll)|
  {
    var fetch := Remote(coll, Absent, pastEnd);
    var s1 := State(1 + PageSize, Some(2 * PageSize), Retained(coll[..PageSize]));
    FullPage(coll, Absent, pastEnd, 0);
    FullPage(coll, Absent, pastEnd, PageSize);
    assert fetch(1) == Serve(coll, Absent, pastEnd, 1);
    assert fetch(1 + PageSize) == Serve(coll, Absent, pastEnd, 1 + PageSize);
    assert coll[..0] == [];
    EstimateFirstStep(coll, pastEnd);
    RunUnfold(fetch, Initial, fuel);
    EstimateSecondStep(coll, pastEnd);
    RunUnfold(fetch, s1, fuel - 1);
    RetainedFull(coll);
  }

  /** A full page of URL-bearing entries starting after `lo` entries: served
      whole, and adding exactly its 500 records. */
  lemma FullPage(coll: seq<RawEntry>, field: TotalField, pastEnd: PageResult, lo: nat)
    requires forall i :: 0 <= i < |coll| ==> HasUrl(coll[i])
    requires lo + PageSize <= |coll|
    ensures Serve(coll, field, pastEnd, lo + 1) == Page(coll[lo..lo + PageSize], field)
    ensures FirstMisshapen(coll[lo..lo + PageSize]) == PageSize
    ensures Retained(coll[..lo + PageSize]) == Retained(coll[..lo]) + Retained(coll[lo..lo + PageSize])
    ensures |Retained(coll[lo..lo + PageSize])| == PageSize
  {
    SliceRetained(coll, lo, lo + PageSize);
    SliceAllHaveUrl(coll, lo, lo + PageSize);
  }

  /** The records up to `hi` are those up to `lo` followed by those between. */
  lemma SliceRetained(coll: seq<RawEntry>, lo: nat, hi: nat)
    requires lo <= hi <= |coll|
    ensures Retained(coll[..hi]) == Retained(coll[..lo]) + Retained(coll[lo..hi])
  {
    assert coll[..lo] + coll[lo..hi] == coll[..hi];
    RetainedAppend(coll[..lo], coll[lo..hi]);
  }

  /** A slice of URL-bearing entries keeps one record per entry. */
  lemma SliceAllHaveUrl(coll: seq<RawEntry>, lo: nat, hi: nat)
    requires forall i :: 0 <= i < |coll| ==> HasUrl(coll[i])
    requires lo <= hi <= |coll|
    ensures FirstMisshapen(coll[lo..hi]) == hi - lo
    ensures |Retained(coll[lo..hi])| == hi - lo
  {
    var page := coll[lo..hi];
    assert forall i :: 0 <= i < |page| ==> HasUrl(page[i]);
    FirstMisshapenAt(page, |page|);
    RetainedFull(page);
  }

  /** First page, no total field: the estimate 1000 is set and the loop goes on. */
  lemma EstimateFirstStep(coll: seq<RawEntry>, pastEnd: PageResult)
    requires forall i :: 0 <= i < |coll| ==> HasUrl(coll[i])
    requires |coll| > 2 * PageSize
    ensures Step(Initial, Serve(coll, Absent, pastEnd, 1)) ==
      Continue(State(1 + PageSize, Some(2 * PageSize), Retained(coll[..PageSize])))
  {
    FullPage(coll, Absent, pastEnd, 0);
    var page := coll[0..PageSize];
    assert page[..PageSize] == page;
    assert coll[..0] == [];
    GatherMeaning([], page);
  }

  /** Second page: the count reaches the estimate and the loop stops. */
  lemma EstimateSecondStep(coll: seq<RawEntry>, pastEnd: PageResult)
    requires forall i :: 0 <= i < |coll| ==> HasUrl(coll[i])
    requires |coll| > 2 * PageSize
    ensures Step(State(1 + PageSize, Some(2 * PageSize), Retained(coll[..PageSize])), Serve(coll, Absent, pastEnd, 1 + PageSize)) ==
      Stop(State(1 + PageSize, Some(2 * PageSize), Retained(coll[..2 * PageSize])), TotalReached)
  {
    var acc := Retained(coll[..PageSize]);
    var page := coll[PageSize..2 * PageSize];
    FullPage(coll, Absent, pastEnd, PageSize);
    SliceAllHaveUrl(coll, 0, 2 * PageSize);
    assert coll[0..2 * PageSize] == coll[..2 * PageSize];
    assert page[..PageSize] == page;
    GatherMeaning(acc, page);
    assert Gather(acc, page) == (Retained(coll[..2 * PageSize]), false);
  }
}

=== FILE: entries.dfy ===
/** Per-entry extraction: how one raw feed entry becomes a post record
    `{url, title, labels}` or is dropped (generate_blogger_index.py, lines 55-70). */
module Entries {
  import opened Wrappers

  /** One element of an entry's `link` array; a key that is missing reads as `None`. */
  datatype Link = Link(rel: Option<string>, href: Option<string>)

  /** One element of an entry's `category` array. */
  datatype Category = Category(term: Option<string>)

  /** The entry's `title` object: missing altogether, or present with or without `$t`. */
  datatype Title = NoTitle | TitleObject(text: Option<string>)

  /** A raw entry as the feed delivers it. A missing `link` or `category` key reads
      as an empty array. `Misshapen` stands for an entry whose shape makes the
      extraction raise (a title or category that is not an object, a link that is
      not an object at or before the first alternate one, a `link` that is `null`,
      ...): the exception is not caught per entry. The inner loop never looks past
      the first alternate link, so an entry whose later links are not objects is an
      `Entry` whose `links` end at that link (`LaterLinksIgnored`). */
  datatype RawEntry =
    | Entry(links: seq<Link>, title: Title, categories: seq<Category>)
    | Misshapen

  /** The record the script appends to its accumulator and finally writes. */
  datatype Post = Post(url: string, title: string, labels: seq<string>)

  const Alternate: string := "alternate"
  const Untitled: string := "Untitled"

  /** Python truthiness of an optional string: present and non-empty. */
  predicate Truthy(v: Option<string>) {
    v.Some? && v.value != ""
  }

  /** `links[i]` is the first link whose `rel` is exactly "alternate". */
  predicate IsFirstAlternate(links: seq<Link>, i: int) {
    && 0 <= i < |links|
    && links[i].rel == Some(Alternate)
    && forall j :: 0 <= j < i ==> links[j].rel != Some(Alternate)
  }

  /** Index of the link the inner loop stops at, if any. */
  function FirstAlternate(links: seq<Link>): (r: Option<nat>)
    ensures r.Some? ==> r.value < |links|
  {
    if |links| == 0 then None
    else if links[0].rel == Some(Alternate) then Some(0)
    else match FirstAlternate(links[1..])
      case None => None
      case Some(i) => Some(i + 1)
  }

  /** The inner loop stops at the first alternate link, and finds none exactly
      when no link is an alternate one. */
  lemma {:induction false} FirstAlternateMeaning(links: seq<Link>)
    ensures FirstAlternate(links).Some? ==> IsFirstAlternate(links, FirstAlternate(links).value)
    ensures FirstAlternate(links).None? <==> forall i :: 0 <= i < |links| ==> links[i].rel != Some(Alternate)
  {
    if |links| > 0 && links[0].rel != Some(Alternate) {
      FirstAlternateMeaning(links[1..]);
      assert forall i :: 1 <= i < |links| ==> links[i] == links[1..][i - 1];
    }
  }

  /** The value `post_url` holds after the inner loop: the `href` of the first
      alternate link (possibly missing), or `None` when there is no such link. */
  function PostUrl(links: seq<Link>): Option<string> {
    match FirstAlternate(links)
    case None => None
    case Some(i) => links[i].href
  }

  /** The label list comprehension: truthy `term` values in encounter order. */
  function Labels(categories: seq<Category>): (r: seq<string>)
    ensures |r| <= |categories|
  {
    if |categories| == 0 then []
    else
      var rest := Labels(categories[1..]);
      if Truthy(categories[0].term) then [categories[0].term.value] + rest else rest
  }

  /** Every label is a non-empty `term`, and every non-empty `term` is a label. */
  lemma {:induction false} LabelsMeaning(categories: seq<Category>)
    ensures forall k :: 0 <= k < |Labels(categories)| ==> Labels(categories)[k] != ""
    ensures forall t :: t in Labels(categories) <==>
      exists i :: 0 <= i < |categories| && categories[i].term == Some(t) && t != ""
  {
    if |categories| > 0 {
      LabelsMeaning(categories[1..]);
      assert forall i :: 1 <= i < |categories| ==> categories[i] == categories[1..][i - 1];
    }
  }

  /** The title of a retained record: the `$t` text, or "Untitled" when the
      title object or its `$t` is missing. */
  function TitleText(t: Title): string {
    match t
    case NoTitle => Untitled
    case TitleObject(text) => text.GetOr(Untitled)
  }

  /** One iteration of the entry loop on a well-shaped entry: the record it
      appends, or `None` when `post_url` is falsy and the entry is skipped. */
  function Extract(e: RawEntry): (r: Option<Post>)
    requires e.Entry?
    ensures r.Some? ==> r.value.url != ""
  {
    var url := PostUrl(e.links);
    if Truthy(url) then Some(Post(url.value, TitleText(e.title), Labels(e.categories)))
    else None
  }

  /** A record is produced exactly when the first alternate link carries a
      non-empty `href`; its URL is that `href`, its labels those of the entry,
      its title the `$t` text or "Untitled". */
  lemma ExtractMeaning(e: RawEntry)
    requires e.Entry?
    ensures Extract(e).Some? <==> exists i :: IsFirstAlternate(e.links, i) && Truthy(e.links[i].href)
    ensures Extract(e).Some? ==>
      forall i :: IsFirstAlternate(e.links, i) ==> e.links[i].href == Some(Extract(e).value.url)
    ensures Extract(e).Some? ==> Extract(e).value.labels == Labels(e.categories)
    ensures Extract(e).Some? && e.title.TitleObject? && e.title.text.Some? ==>
      Extract(e).value.title == e.title.text.value
    ensures Extract(e).Some? && (e.title.NoTitle? || e.title.text.None?) ==> Extract(e).value.title == Untitled
  {
    FirstAlternateMeaning(e.links);
    if Extract(e).Some? {
      var i := FirstAlternate(e.links).value;
      assert IsFirstAlternate(e.links, i) && Truthy(e.links[i].href);
    }
  }

  /** The entry contributes a record to the accumulator. */
  predicate HasUrl(e: RawEntry) {
    e.Entry? && Extract(e).Some?
  }

  /** What one entry adds to the accumulator (nothing for a skipped one). */
  function Kept(e: RawEntry): seq<Post> {
    if HasUrl(e) then [Extract(e).value] else []
  }

  /** The records a run of entries contributes, in entry order. */
  function Retained(entries: seq<RawEntry>): (r: seq<Post>)
    ensures |r| <= |entries|
  {
    if |entries| == 0 then [] else Kept(entries[0]) + Retained(entries[1..])
  }

  /** Every retained record has a non-empty URL. */
  lemma {:induction false} RetainedUrls(entries: seq<RawEntry>)
    ensures forall k :: 0 <= k < |Retained(entries)| ==> Retained(entries)[k].url != ""
  {
    if |entries| > 0 {
      RetainedUrls(entries[1..]);
      var r := Retained(entries);
      assert forall k :: |Kept(entries[0])| <= k < |r| ==> r[k] == Retained(entries[1..])[k - |Kept(entries[0])|];
    }
  }

  /** Index of the first entry whose extraction raises, or `|entries|`. */
  function FirstMisshapen(entries: seq<RawEntry>): (k: nat)
    ensures k <= |entries|
    ensures k < |entries| ==> entries[k].Misshapen?
  {
    if |entries| == 0 || entries[0].Misshapen? then 0
    else 1 + FirstMisshapen(entries[1..])
  }

  /** The first misshapen entry is at `k` exactly when every entry before `k`
      is well-shaped and `k` is misshapen or the end of the page. */
  lemma {:induction false} FirstMisshapenAt(entries: seq<RawEntry>, k: nat)
    requires k <= |entries|
    ensures FirstMisshapen(entries) == k <==>
      (forall j :: 0 <= j < k ==> entries[j].Entry?) && (k < |entries| ==> entries[k].Misshapen?)
  {
    if |entries| > 0 && entries[0].Entry? && k > 0 {
      FirstMisshapenAt(entries[1..], k - 1);
      assert forall j :: 1 <= j < k ==> entries[j] == entries[1..][j - 1];
    }
  }

  /** Some entry of the page is misshapen exactly when the walk meets one
      before the end. */
  lemma MisshapenSomewhere(entries: seq<RawEntry>)
    ensures FirstMisshapen(entries) < |entries| <==> exists j :: 0 <= j < |entries| && entries[j].Misshapen?
  {
    FirstMisshapenAt(entries, FirstMisshapen(entries));
  }

  /** The page's entry loop as a function: the accumulator after walking the
      entries in order, and whether an entry raised (which ends the walk with
      the records appended so far). */
  function Gather(acc: seq<Post>, entries: seq<RawEntry>): (seq<Post>, bool)
    decreases |entries|
  {
    if |entries| == 0 then (acc, false)
    else if entries[0].Misshapen? then (acc, true)
    else Gather(acc + Kept(entries[0]), entries[1..])
  }

  /** The walk appends the records of the entries before the first misshapen
      one, and it raises exactly when some entry is misshapen. */
  lemma GatherMeaning(acc: seq<Post>, entries: seq<RawEntry>)
    ensures Gather(acc, entries).0 == acc + Retained(entries[..FirstMisshapen(entries)])
    ensures Gather(acc, entries).1 <==> FirstMisshapen(entries) < |entries|
  {
    GatherRecords(acc, entries);
    GatherRaises(acc, entries);
  }

  /** The records the walk appends. */
  lemma {:induction false} GatherRecords(acc: seq<Post>, entries: seq<RawEntry>)
    ensures Gather(acc, entries).0 == acc + Retained(entries[..FirstMisshapen(entries)])
    decreases |entries|
  {
    if |entries| == 0 || entries[0].Misshapen? {
      assert entries[..FirstMisshapen(entries)] == [];
    } else {
      var rest := entries[1..];
      var k := FirstMisshapen(rest);
      GatherRecords(acc + Kept(entries[0]), rest);
      assert entries[..k + 1][1..] == rest[..k];
      assert Retained(entries[..k + 1]) == Kept(entries[0]) + Retained(rest[..k]);
    }
  }

  /** When the walk raises. */
  lemma {:induction false} GatherRaises(acc: seq<Post>, entries: seq<RawEntry>)
    ensures Gather(acc, entries).1 <==> FirstMisshapen(entries) < |entries|
    decreases |entries|
  {
    if |entries| > 0 && entries[0].Entry? {
      GatherRaises(acc + Kept(entries[0]), entries[1..]);
    }
  }

  /** The page's `for entry in entries` loop. It appends one record per
      URL-bearing entry and stops (`raised`) at the first entry whose shape
      makes the extraction throw, keeping what it already appended: it
      computes exactly the walk `Gather`. */
  method ProcessPage(acc: seq<Post>, entries: seq<RawEntry>) returns (out: seq<Post>, raised: bool)
    ensures (out, raised) == Gather(acc, entries)
  {
    out := acc;
    var i := 0;
    while i < |entries|
      invariant 0 <= i <= |entries|
      invariant Gather(out, entries[i..]) == Gather(acc, entries)
    {
      if entries[i].Misshapen? {
        return out, true;
      }
      assert entries[i..][1..] == entries[i + 1..];
      assert Gather(out, entries[i..]) == Gather(out + Kept(entries[i]), entries[i + 1..]);
      var post := Extract(entries[i]);
      if post.Some? {
        out := out + [post.value];
      } else {
        assert out + Kept(entries[i]) == out;
      }
      i := i + 1;
    }
    return out, false;
  }

  /** Retained distributes over concatenation: the records of a page are the
      records of its first part followed by those of the rest. */
  lemma {:induction false} RetainedAppend(a: seq<RawEntry>, b: seq<RawEntry>)
    ensures Retained(a + b) == Retained(a) + Retained(b)
  {
    if |a| == 0 {
      assert a + b == b;
    } else {
      assert (a + b)[1..] == a[1..] + b;
      RetainedAppend(a[1..], b);
    }
  }

  /** Every entry contributes exactly when every entry is well-shaped and
      URL-bearing: a skipped entry makes the record list shorter than the page. */
  lemma {:induction false} RetainedFull(entries: seq<RawEntry>)
    ensures |Retained(entries)| == |entries| <==> forall i :: 0 <= i < |entries| ==> HasUrl(entries[i])
  {
    if |entries| > 0 {
      RetainedFull(entries[1..]);
      assert forall i :: 1 <= i < |entries| ==> entries[i] == entries[1..][i - 1];
    }
  }

  /** A skipped entry neither stops the page nor disturbs its neighbours'
      records. */
  lemma {:induction false} SkippedEntryIsInvisible(acc: seq<Post>, before: seq<RawEntry>, e: RawEntry, after: seq<RawEntry>)
    requires e.Entry? && !HasUrl(e)
    ensures Gather(acc, before + [e] + after) == Gather(acc, before + after)
    decreases |before|
  {
    if |before| == 0 {
      assert before + [e] + after == [e] + after;
      assert ([e] + after)[1..] == after;
      assert before + after == after;
      assert acc + Kept(e) == acc;
      assert Gather(acc, [e] + after) == Gather(acc + Kept(e), after);
    } else {
      assert (before + [e] + after)[1..] == before[1..] + [e] + after;
      assert (before + after)[1..] == before[1..] + after;
      if !before[0].Misshapen? {
        SkippedEntryIsInvisible(acc + Kept(before[0]), before[1..], e, after);
      }
    }
  }

  /** Only the first alternate link is consulted: whatever follows it in the
      `link` array (further alternate links included) never changes the record. */
  lemma LaterLinksIgnored(e: RawEntry, i: nat, rest: seq<Link>)
    requires e.Entry? && IsFirstAlternate(e.links, i)
    ensures Extract(e.(links := e.links[..i + 1] + rest)) == Extract(e)
  {
    var links' := e.links[..i + 1] + rest;
    assert IsFirstAlternate(links', i);
    FirstAlternateUnique(links', i);
    FirstAlternateUnique(e.links, i);
  }

  /** At most one index is the first alternate link, so `FirstAlternate` finds it. */
  lemma FirstAlternateUnique(links: seq<Link>, i: nat)
    requires IsFirstAlternate(links, i)
    ensures FirstAlternate(links) == Some(i)
  {
    FirstAlternateMeaning(links);
  }

  /** Labels keep encounter order: the labels of two category lists joined are
      the labels of the first followed by those of the second. */
  lemma {:induction false} LabelsAppend(a: seq<Category>, b: seq<Category>)
    ensures Labels(a + b) == Labels(a) + Labels(b)
  {
    if |a| == 0 {
      assert a + b == b;
    } else {
      assert (a + b)[1..] == a[1..] + b;
      LabelsAppend(a[1..], b);
    }
  }
}

=== FILE: pagination.dfy ===
/** The fetch loop of generate_blogger_index.py (lines 16-95) as a state
    machine: one `Step` per fetched page, `Run` iterating it, and `FetchAll`
    following the script's own control flow with its `break`s and `exit()`. */
module Pagination {
  import opened Wrappers
  import opened Entries

  /** `MAX_RESULTS_PER_REQUEST`: the page size and the offset increment. */
  const PageSize: int := 500

  /** `openSearch$totalResults.$t` of a page: missing (the object or its `$t`),
      a string `int()` accepts, or one it rejects with an exception. */
  datatype TotalField = Absent | Valid(n: int) | Unparsable

  /** What one fetch yields. `Fault`: the request, the status check or the
      JSON decoding raised. `Malformed`: decoded into an object without a
      `feed` key, or whose `feed` object has no `entry` key. A `feed` that is
      not an object (`"feed": null`) makes the test at line 31 raise a
      `TypeError`, which the last handler catches: such a page is modelled as
      `Fault`, which writes the same accumulator with a different reason. An
      `"entry": null` is modelled as `Page([], field)`, which breaks on the
      empty page; the same accumulator is written, though when the total is
      still unknown and its field absent, `len(entries)` at line 49 raises
      first and the script breaks on that exception instead. */
  datatype PageResult =
    | Fault
    | Malformed
    | Page(entries: seq<RawEntry>, totalField: TotalField)

  /** The loop variables `start_index`, `total_posts` and `all_posts_data`. */
  datatype State = State(start: int, total: Option<int>, acc: seq<Post>)

  /** The values before the first iteration. */
  const Initial: State := State(1, None, [])

  /** Why the loop was left by a `break`:
      `EmptyPage`: the page's entry list is empty;
      `TotalReached`: the accumulated count is at least `total_posts`;
      `TrailingMalformed`: a malformed page at an offset other than 1;
      `RequestFailed`: a request or JSON decoding exception;
      `UnexpectedError`: any other exception (an unparsable total, a misshapen entry);
      `UnknownTotalEmpty`: the guard for an unknown total and an empty page. */
  datatype StopReason =
    | EmptyPage
    | TotalReached
    | TrailingMalformed
    | RequestFailed
    | UnexpectedError
    | UnknownTotalEmpty

  /** One iteration ends by going round again, by a `break` (after which the
      accumulator is written), or by `exit()` (nothing is written). */
  datatype StepResult =
    | Continue(next: State)
    | Stop(final: State, why: StopReason)
    | Exit

  /** The outcome of the whole script: the file is written with `final.acc`,
      or the script exits without writing. `Unfinished` means the bound on the
      number of fetches ran out while the loop still wanted to go on. */
  datatype RunResult =
    | Written(final: State, why: StopReason)
    | NoOutput
    | Unfinished(pending: State)

  /** The state an iteration leaves behind, when it does not exit. */
  function After(r: StepResult): State
    requires !r.Exit?
  {
    if r.Continue? then r.next else r.final
  }

  /** `total_posts` after the block at lines 42-49: the known value, else the
      parsed field, else the estimate. `ParseRaised` is `int()` throwing. */
  datatype TotalUpdate = Known(total: int) | ParseRaised

  function FixTotal(known: Option<int>, start: int, count: nat, field: TotalField): (u: TotalUpdate)
    ensures known.Some? ==> u == Known(known.value)
    ensures u.ParseRaised? <==> known.None? && field.Unparsable?
    ensures known.None? && field.Valid? ==> u == Known(field.n)
  {
    if known.Some? then Known(known.value)
    else match field
      case Valid(n) => Known(n)
      case Absent => Known(start + count - 1 + PageSize)
      case Unparsable => ParseRaised
  }

  /** One iteration of `while True` on the page fetched at `s.start`. */
  function Step(s: State, page: PageResult): (r: StepResult)
    // exit() happens exactly for a malformed first page
    ensures r.Exit? <==> page.Malformed? && s.start == 1
    // the offset grows by the page size, whatever the page held
    ensures r.Continue? ==> r.next.start == s.start + PageSize
    // the safety break of lines 83-85 can never be taken
    ensures r.Stop? ==> r.why != UnknownTotalEmpty
  {
    match page
    case Fault => Stop(s, RequestFailed)
    case Malformed => if s.start == 1 then Exit else Stop(s, TrailingMalformed)
    case Page(entries, field) =>
      match FixTotal(s.total, s.start, |entries|, field)
      case ParseRaised => Stop(s, UnexpectedError)
      case Known(t) =>
        var counted := s.(total := Some(t));
        if |entries| == 0 then Stop(counted, EmptyPage)
        else
          var gathered := Gather(s.acc, entries);
          var processed := counted.(acc := gathered.0);
          if gathered.1 then Stop(processed, UnexpectedError)
          else if |processed.acc| >= t then Stop(processed, TotalReached)
          else
            var advanced := processed.(start := s.start + PageSize);
            if advanced.total.None? && |entries| == 0 then Stop(advanced, UnknownTotalEmpty)
            else Continue(advanced)
  }

  /** What an iteration does to `total_posts`: a known total is never
      reassigned; after a page that gets past the total block the total is the
      one `FixTotal` gives; going on leaves the count short of the total, and
      stopping on the total means the count reached it. */
  lemma StepTotal(s: State, page: PageResult)
    ensures var r := Step(s, page);
      && (!r.Exit? && s.total.Some? ==> After(r).total == s.total)
      && (!r.Exit? && page.Page? && FixTotal(s.total, s.start, |page.entries|, page.totalField).Known? ==>
            After(r).total == Some(FixTotal(s.total, s.start, |page.entries|, page.totalField).total))
      && (r.Continue? ==> r.next.total.Some? && |r.next.acc| < r.next.total.value)
      && (r.Stop? && r.why == TotalReached ==> r.final.total.Some? && |r.final.acc| >= r.final.total.value)
  {
  }

  /** An iteration never changes or removes a record already accumulated. */
  lemma StepGrows(s: State, page: PageResult)
    ensures !Step(s, page).Exit? ==> s.acc <= After(Step(s, page)).acc
  {
    if page.Page? {
      GatherMeaning(s.acc, page.entries);
    }
  }

  /** What an iteration does to the accumulator: a stop leaves the offset
      alone; only URL-bearing records are appended; a page without entries
      adds nothing and ends the loop; a page that passes the total block
      appends the records of its entries up to the first misshapen one. */
  lemma StepRecords(s: State, page: PageResult)
    ensures var r := Step(s, page);
      && (r.Stop? ==> r.final.start == s.start)
      && (!r.Exit? ==> forall k :: |s.acc| <= k < |After(r).acc| ==> After(r).acc[k].url != "")
      && (!page.Page? || page.entries == [] ==> !r.Continue? && (r.Stop? ==> r.final.acc == s.acc && r.why != TotalReached))
      && (page.Page? && |page.entries| > 0 && FixTotal(s.total, s.start, |page.entries|, page.totalField).Known? ==>
            !r.Exit? && After(r).acc == s.acc + Retained(page.entries[..FirstMisshapen(page.entries)]))
      && (r.Continue? ==> page.Page? && |page.entries| > 0)
  {
    if page.Page? {
      GatherMeaning(s.acc, page.entries);
      RetainedUrls(page.entries[..FirstMisshapen(page.entries)]);
    }
  }

  /** The loop run against `fetch`, which gives the page returned for each
      start index, for at most `fuel` fetches. */
  function Run(fetch: int -> PageResult, s: State, fuel: nat): RunResult
    decreases fuel
  {
    if fuel == 0 then Unfinished(s)
    else match Step(s, fetch(s.start))
      case Continue(next) => Run(fetch, next, fuel - 1)
      case Stop(final, why) => Written(final, why)
      case Exit => NoOutput
  }

  /** The state at each fetch the loop performs, in order. */
  function Trace(fetch: int -> PageResult, s: State, fuel: nat): (t: seq<State>)
    ensures |t| <= fuel
    ensures fuel > 0 ==> |t| > 0 && t[0] == s
    decreases fuel
  {
    if fuel == 0 then []
    else match Step(s, fetch(s.start))
      case Continue(next) => [s] + Trace(fetch, next, fuel - 1)
      case _ => [s]
  }

  /** The body of `while True` (lines 23-95), statement by statement: the
      iteration at `s` on the page fetched there. It agrees with `Step`. */
  method Iteration(s: State, page: PageResult) returns (r: StepResult)
    ensures r == Step(s, page)
  {
    var start, total, acc := s.start, s.total, s.acc;
    if page.Fault? {
      return Stop(s, RequestFailed);
    }
    if page.Malformed? {
      if start == 1 {
        return Exit;
      } else {
        return Stop(s, TrailingMalformed);
      }
    }
    var entries := page.entries;
    if total.None? {
      match page.totalField
      case Valid(n) =>
        total := Some(n);
      case Absent =>
        total := Some(start + |entries| - 1 + PageSize);
      case Unparsable =>
        return Stop(s, UnexpectedError);
    }
    if |entries| == 0 {
      return Stop(State(start, total, acc), EmptyPage);
    }
    var raised;
    acc, raised := ProcessPage(acc, entries);
    if raised {
      return Stop(State(start, total, acc), UnexpectedError);
    }
    if total.Some? && |acc| >= total.value {
      return Stop(State(start, total, acc), TotalReached);
    }
    start := start + PageSize;
    if total.None? && |entries| == 0 {
      return Stop(State(start, total, acc), UnknownTotalEmpty);
    }
    return Continue(State(start, total, acc));
  }

  /** The whole loop, bounded to `maxFetches` fetches; its outcome is that of
      `Run`. */
  method FetchAll(fetch: int -> PageResult, maxFetches: nat) returns (r: RunResult)
    ensures r == Run(fetch, Initial, maxFetches)
  {
    var s := Initial;
    var fetches := 0;
    while fetches < maxFetches
      invariant 0 <= fetches <= maxFetches
      invariant Run(fetch, s, maxFetches - fetches) == Run(fetch, Initial, maxFetches)
    {
      var step := Iteration(s, fetch(s.start));
      RunUnfold(fetch, s, maxFetches - fetches);
      if step.Exit? {
        return NoOutput;
      } else if step.Stop? {
        return Written(step.final, step.why);
      }
      s := step.next;
      fetches := fetches + 1;
    }
    return Unfinished(s);
  }

  /** One fetch of a run: the run from `s` is decided by the step on the page
      fetched at `s.start`. */
  lemma RunUnfold(fetch: int -> PageResult, s: State, fuel: nat)
    requires fuel > 0
    ensures Step(s, fetch(s.start)).Continue? ==> Run(fetch, s, fuel) == Run(fetch, Step(s, fetch(s.start)).next, fuel - 1)
    ensures Step(s, fetch(s.start)).Stop? ==>
      Run(fetch, s, fuel) == Written(Step(s, fetch(s.start)).final, Step(s, fetch(s.start)).why)
    ensures Step(s, fetch(s.start)).Exit? ==> Run(fetch, s, fuel) == NoOutput
  {
  }

  /** The trace from `s` is `s` followed by the trace from the next state. */
  lemma TraceUnfold(fetch: int -> PageResult, s: State, fuel: nat)
    requires fuel > 0
    ensures Step(s, fetch(s.start)).Continue? ==>
      Trace(fetch, s, fuel) == [s] + Trace(fetch, Step(s, fetch(s.start)).next, fuel - 1)
    ensures !Step(s, fetch(s.start)).Continue? ==> Trace(fetch, s, fuel) == [s]
  {
  }

  /** The trace holds the states at which `Run` fetches: its last state is
      the one whose step ends the run. A written file comes from the stop at
      that state, and nothing is written only after an `exit()` there. */
  lemma {:induction false} TraceLast(fetch: int -> PageResult, s: State, fuel: nat)
    requires fuel > 0
    ensures var t := Trace(fetch, s, fuel); var r := Run(fetch, s, fuel);
      && |t| > 0
      && (r.Written? ==> Step(t[|t| - 1], fetch(t[|t| - 1].start)) == Stop(r.final, r.why))
      && (r.NoOutput? ==> Step(t[|t| - 1], fetch(t[|t| - 1].start)).Exit?)
    decreases fuel
  {
    RunUnfold(fetch, s, fuel);
    TraceUnfold(fetch, s, fuel);
    var t := Trace(fetch, s, fuel);
    var step := Step(s, fetch(s.start));
    if !step.Continue? {
      assert t == [s];
    } else if fuel > 1 {
      var rest := Trace(fetch, step.next, fuel - 1);
      TraceLast(fetch, step.next, fuel - 1);
      assert t[|t| - 1] == rest[|rest| - 1];
      assert Run(fetch, s, fuel) == Run(fetch, step.next, fuel - 1);
    }
  }

  /** A run cut short by the bound used every allowed fetch, and the step at
      its last fetch state was about to go round again. */
  lemma {:induction false} TraceCutShort(fetch: int -> PageResult, s: State, fuel: nat)
    requires fuel > 0
    ensures var t := Trace(fetch, s, fuel); var r := Run(fetch, s, fuel);
      r.Unfinished? ==> |t| == fuel && Step(t[|t| - 1], fetch(t[|t| - 1].start)) == Continue(r.pending)
    decreases fuel
  {
    RunUnfold(fetch, s, fuel);
    TraceUnfold(fetch, s, fuel);
    var t := Trace(fetch, s, fuel);
    var step := Step(s, fetch(s.start));
    if step.Continue? && fuel == 1 {
      assert Trace(fetch, step.next, 0) == [];
      assert t == [s];
    } else if step.Continue? {
      var rest := Trace(fetch, step.next, fuel - 1);
      TraceCutShort(fetch, step.next, fuel - 1);
      assert |rest| > 0 && t[|t| - 1] == rest[|rest| - 1];
      assert Run(fetch, s, fuel) == Run(fetch, step.next, fuel - 1);
    }
  }

  /** Once the loop is past the first page it can no longer exit without
      writing: only a malformed page at offset 1 leads to `exit()`. */
  lemma {:induction false} NoExitAfterFirstPage(fetch: int -> PageResult, s: State, fuel: nat)
    requires s.start > 1
    ensures !Run(fetch, s, fuel).NoOutput?
    decreases fuel
  {
    if fuel > 0 {
      var r := Step(s, fetch(s.start));
      if r.Continue? {
        NoExitAfterFirstPage(fetch, r.next, fuel - 1);
      }
    }
  }

  /** The fetch bound only cuts runs short: once a run finishes within `f`
      fetches, any larger bound gives the same outcome, so a finished `Run`
      is what the unbounded `while True` does. */
  lemma {:induction false} RunMoreFuel(fetch: int -> PageResult, s: State, f: nat, g: nat)
    requires f <= g && !Run(fetch, s, f).Unfinished?
    ensures Run(fetch, s, g) == Run(fetch, s, f)
    decreases f
  {
    RunUnfold(fetch, s, f);
    RunUnfold(fetch, s, g);
    var r := Step(s, fetch(s.start));
    if r.Continue? {
      RunMoreFuel(fetch, r.next, f - 1, g - 1);
    }
  }

  /** The script ends without writing its file exactly when the first page is
      malformed; every other ending writes the accumulator, possibly empty. */
  lemma NoOutputIffMalformedFirstPage(fetch: int -> PageResult, fuel: nat)
    requires fuel > 0
    ensures Run(fetch, Initial, fuel).NoOutput? <==> fetch(1).Malformed?
  {
    var r := Step(Initial, fetch(1));
    if r.Continue? {
      NoExitAfterFirstPage(fetch, r.next, fuel - 1);
    }
  }

  /** A written file holds the initial accumulator followed by URL-bearing
      records only: earlier records are never changed or removed. */
  lemma {:induction false} RunExtendsAccumulator(fetch: int -> PageResult, s: State, fuel: nat)
    ensures Run(fetch, s, fuel).Written? ==> s.acc <= Run(fetch, s, fuel).final.acc
    ensures Run(fetch, s, fuel).Written? ==>
      forall k :: |s.acc| <= k < |Run(fetch, s, fuel).final.acc| ==> Run(fetch, s, fuel).final.acc[k].url != ""
    decreases fuel
  {
    if fuel > 0 {
      var r := Step(s, fetch(s.start));
      StepGrows(s, fetch(s.start));
      StepRecords(s, fetch(s.start));
      if r.Continue? {
        RunExtendsAccumulator(fetch, r.next, fuel - 1);
      }
    }
  }

  /** Every record of a file written from the initial state has a non-empty URL. */
  lemma WrittenRecordsHaveUrls(fetch: int -> PageResult, fuel: nat)
    ensures Run(fetch, Initial, fuel).Written? ==>
      forall k :: 0 <= k < |Run(fetch, Initial, fuel).final.acc| ==> Run(fetch, Initial, fuel).final.acc[k].url != ""
  {
    RunExtendsAccumulator(fetch, Initial, fuel);
  }

  /** The k-th fetch asks for start index `s.start + 500 * k`, whatever the
      earlier pages held. */
  lemma {:induction false} TraceOffsets(fetch: int -> PageResult, s: State, fuel: nat)
    ensures forall k :: 0 <= k < |Trace(fetch, s, fuel)| ==> Trace(fetch, s, fuel)[k].start == s.start + PageSize * k
    decreases fuel
  {
    if fuel > 0 {
      var r := Step(s, fetch(s.start));
      TraceUnfold(fetch, s, fuel);
      if r.Continue? {
        TraceOffsets(fetch, r.next, fuel - 1);
        ShiftOffsets(s, r.next, Trace(fetch, r.next, fuel - 1));
      }
    }
  }

  /** Prepending the state one page earlier shifts every offset by one page. */
  lemma ShiftOffsets(s: State, next: State, rest: seq<State>)
    requires next.start == s.start + PageSize
    requires forall k :: 0 <= k < |rest| ==> rest[k].start == next.start + PageSize * k
    ensures forall k :: 0 <= k < |[s] + rest| ==> ([s] + rest)[k].start == s.start + PageSize * k
  {
    forall k | 1 <= k < |[s] + rest|
      ensures ([s] + rest)[k].start == s.start + PageSize * k
    {
      assert ([s] + rest)[k] == rest[k - 1];
      assert PageSize * k == PageSize + PageSize * (k - 1);
    }
  }

  /** From the initial state, the k-th fetch asks for start index `1 + 500 * k`. */
  lemma FetchOffsets(fetch: int -> PageResult, fuel: nat)
    ensures forall k :: 0 <= k < |Trace(fetch, Initial, fuel)| ==> Trace(fetch, Initial, fuel)[k].start == 1 + PageSize * k
  {
    TraceOffsets(fetch, Initial, fuel);
  }

  /** A written file is written from the offset of the script's last fetch,
      `1 + 500 * k` for the k-th. */
  lemma WrittenOffset(fetch: int -> PageResult, fuel: nat)
    requires fuel > 0
    ensures var r := Run(fetch, Initial, fuel);
      r.Written? ==> exists k :: 0 <= k < fuel && r.final.start == 1 + PageSize * k
  {
    var t := Trace(fetch, Initial, fuel);
    var r := Run(fetch, Initial, fuel);
    TraceLast(fetch, Initial, fuel);
    FetchOffsets(fetch, fuel);
    if r.Written? {
      var k := |t| - 1;
      StepRecords(t[k], fetch(t[k].start));
      assert r.final.start == 1 + PageSize * k;
    }
  }

  /** A known total is kept for the rest of the run. */
  lemma {:induction false} TraceKeepsTotal(fetch: int -> PageResult, s: State, fuel: nat)
    requires s.total.Some?
    ensures forall k :: 0 <= k < |Trace(fetch, s, fuel)| ==> Trace(fetch, s, fuel)[k].total == s.total
    decreases fuel
  {
    if fuel > 0 {
      var r := Step(s, fetch(s.start));
      if r.Continue? {
        TraceKeepsTotal(fetch, r.next, fuel - 1);
      }
    }
  }

  /** `total_posts` is assigned once, on the first page: from the second fetch
      on it is known and equal to the parsed field, or to the estimate
      `len(entries) + 500` when the first page has no total field. */
  lemma TotalSetOnce(fetch: int -> PageResult, fuel: nat)
    ensures var t := Trace(fetch, Initial, fuel);
      forall k :: 1 <= k < |t| ==> t[k].total.Some? && t[k].total == t[1].total
    ensures var t := Trace(fetch, Initial, fuel);
      |t| > 1 ==> fetch(1).Page? && (match fetch(1).totalField
        case Valid(n) => t[1].total == Some(n)
        case Absent => t[1].total == Some(|fetch(1).entries| + PageSize)
        case Unparsable => false)
  {
    if fuel > 1 {
      var r := Step(Initial, fetch(1));
      if r.Continue? {
        TraceKeepsTotal(fetch, r.next, fuel - 1);
      }
    }
  }

  /** Being a prefix is transitive. */
  lemma PrefixTransitive(a: seq<Post>, b: seq<Post>, c: seq<Post>)
    requires a <= b && b <= c
    ensures a <= c
  {
    assert c[..|a|] == b[..|a|];
  }

  /** Each fetch sees an accumulator that extends the one the previous fetch saw. */
  lemma {:induction false} TraceStepsGrow(fetch: int -> PageResult, s: State, fuel: nat)
    ensures var t := Trace(fetch, s, fuel);
      forall i :: 0 < i < |t| ==> t[i - 1].acc <= t[i].acc
    decreases fuel
  {
    if fuel > 0 {
      var r := Step(s, fetch(s.start));
      TraceUnfold(fetch, s, fuel);
      if r.Continue? {
        TraceStepsGrow(fetch, r.next, fuel - 1);
        StepGrows(s, fetch(s.start));
        ShiftGrows(s, r.next, Trace(fetch, r.next, fuel - 1));
      }
    }
  }

  /** Prepending a state whose accumulator the next one extends keeps a
      growing sequence of states growing. */
  lemma ShiftGrows(s: State, next: State, rest: seq<State>)
    requires s.acc <= next.acc && (|rest| > 0 ==> rest[0] == next)
    requires forall i :: 0 < i < |rest| ==> rest[i - 1].acc <= rest[i].acc
    ensures forall i :: 0 < i < |[s] + rest| ==> ([s] + rest)[i - 1].acc <= ([s] + rest)[i].acc
  {
    forall i | 1 < i < |[s] + rest|
      ensures ([s] + rest)[i - 1].acc <= ([s] + rest)[i].acc
    {
      assert ([s] + rest)[i - 1] == rest[i - 2];
      assert ([s] + rest)[i] == rest[i - 1];
    }
  }

  /** In a sequence of states whose accumulators grow step by step, a later
      accumulator extends every earlier one. */
  lemma {:induction false} ChainGrows(t: seq<State>, j: nat, k: nat)
    requires forall i :: 0 < i < |t| ==> t[i - 1].acc <= t[i].acc
    requires j <= k < |t|
    ensures t[j].acc <= t[k].acc
    decreases k - j
  {
    if j < k {
      ChainGrows(t, j, k - 1);
      PrefixTransitive(t[j].acc, t[k - 1].acc, t[k].acc);
    } else {
      assert t[k].acc[..|t[j].acc|] == t[k].acc;
    }
  }

  /** The accumulator seen at the k-th fetch extends the one seen at the j-th,
      for j <= k. */
  lemma TraceAccumulatorGrows(fetch: int -> PageResult, s: State, fuel: nat, j: nat, k: nat)
    requires j <= k < |Trace(fetch, s, fuel)|
    ensures Trace(fetch, s, fuel)[j].acc <= Trace(fetch, s, fuel)[k].acc
  {
    TraceStepsGrow(fetch, s, fuel);
    ChainGrows(Trace(fetch, s, fuel), j, k);
  }


  /** When each `break` is taken: a request fault; a malformed page past the
      first; an exception inside the block (an unparsable total, a misshapen
      entry); an empty page once the total is settled; and the count of
      retained records reaching the total after a fully processed page. */
  lemma StopConditions(s: State, page: PageResult)
    ensures Step(s, page) == Stop(s, RequestFailed) <==> page.Fault?
    ensures Step(s, page) == Stop(s, TrailingMalformed) <==> page.Malformed? && s.start != 1
    ensures Step(s, page).Stop? && Step(s, page).why == UnexpectedError <==>
      page.Page? && (FixTotal(s.total, s.start, |page.entries|, page.totalField).ParseRaised?
        || (|page.entries| > 0 && FirstMisshapen(page.entries) < |page.entries|))
    ensures Step(s, page).Stop? && Step(s, page).why == EmptyPage <==>
      page.Page? && FixTotal(s.total, s.start, |page.entries|, page.totalField).Known? && page.entries == []
    ensures Step(s, page).Stop? && Step(s, page).why == TotalReached <==>
      && page.Page? && FixTotal(s.total, s.start, |page.entries|, page.totalField).Known?
      && |page.entries| > 0 && FirstMisshapen(page.entries) == |page.entries|
      && |s.acc| + |Retained(page.entries)| >= FixTotal(s.total, s.start, |page.entries|, page.totalField).total
  {
    if page.Page? && |page.entries| > 0 {
      GatherMeaning(s.acc, page.entries);
      assert page.entries[..|page.entries|] == page.entries;
    }
  }

  /** An empty first page with a usable total field writes an empty file. */
  lemma EmptyFeedWritesEmpty(fetch: int -> PageResult, fuel: nat)
    requires fuel > 0 && fetch(1).Page? && fetch(1).entries == [] && !fetch(1).totalField.Unparsable?
    ensures Run(fetch, Initial, fuel).Written? && Run(fetch, Initial, fuel).final.acc == []
    ensures Run(fetch, Initial, fuel).why == EmptyPage
  {
  }

  /** A fault on the first request (an HTTP error status included) writes an
      empty file rather than aborting. */
  lemma FirstPageFaultWritesEmpty(fetch: int -> PageResult, fuel: nat)
    requires fuel > 0 && fetch(1).Fault?
    ensures Run(fetch, Initial, fuel) == Written(Initial, RequestFailed)
    ensures Run(fetch, Initial, fuel).final.acc == []
  {
  }

  /** An unparsable total on the first page stops the loop before any of that
      page's entries are looked at. */
  lemma UnparsableTotalWritesEmpty(fetch: int -> PageResult, fuel: nat)
    requires fuel > 0 && fetch(1).Page? && fetch(1).totalField.Unparsable?
    ensures Run(fetch, Initial, fuel) == Written(Initial, UnexpectedError)
  {
  }
}

=== FILE: wrappers.dfy ===
/** The optional value used wherever the script reads a key that may be absent
    (`dict.get` returning `None`) or a variable that starts out as `None`. */
module Wrappers {

  datatype Option<+T> = None | Some(value: T) {

    /** The wrapped value, or `default` when there is none. */
    function GetOr(default: T): T
    {
      match this
      case Some(v) => v
      case None => default
    }
  }
}
